=== FILE: README.md ===
# Mason watch face: arc rasterizer and clock-face composer

A Dafny model of the integer logic of the Mason Pebble watch face. It has two parts.

- **The arc rasterizer** `graphics_draw_arc` (`src/drawarc.c`). The routine first normalises the start and end angles. It uses C's truncating `%`, then adds 360 while the value is negative, then turns an end angle of 0 into 360. It then scans the square `[-radius, radius]²` of offsets around the centre. It sets the pixel `centre + (x, y)` when the offset passes three tests:
  - the annulus test `(radius - thickness)² <= x² + y² < radius²`;
  - a five-clause test against the start ray;
  - a five-clause test against the end ray.
- **The composer** (`src/mason.c`). It computes the minute and hour angles. It splits each hand into one or two arc calls that never wrap past 0°. It keeps a small state: hour, minute, date label, connectivity flag, and the marker timer slot together with the timer service's scheduled timers. It has one handler per platform event: minute tick, connectivity change, tap, timer expiry. Each handler returns the new state and whether it asked for a redraw. A render pass is modelled as a list of abstract draw commands.

Coordinates are screen coordinates: y grows downward. 0° points along +x and angles grow clockwise on screen, so the hands start at 270° (12 o'clock).

The two boundary slopes are `cos/sin` quotients in floating point, taken from trig lookup tables. A measured slope is modelled as an opaque comparison (`Arc.Slope.Measured`): the sign of `compare(x, y)` stands for the sign of `x - y·slope`. The one concrete slope is the sentinel `-1000000`, which the routine uses for an end angle of 360 (`Arc.Slope.Integer`). All rasterizer properties below hold for every measured slope. The only exception is the full-turn lemma, which assumes the start slope at 0° is the infinite `cos 0 / sin 0`.

The thickness is not clamped: the code squares `radius - thickness` as it is. `ArcProperties.ThicknessIsNotClamped` shows that thickness 5 and thickness 3 paint different sets on radius 3.

In the end-side test, the `y == 0, x > 0` clause checks `start == 0`, repeating the start side's condition for the positive x axis, so it adds nothing there. A test of `end == 0` in its place would never hold, since the end is normalised into [1, 360], and the positive x axis would then never be painted. `ArcProperties.HorizontalRow` proves the exact rule for the centre row, and `ArcProperties.ZeroStartPaintsPositiveAxis` shows that with start 0 the positive x axis is painted inside the annulus, whatever the end angle. The centre pixel itself is never set, not even for a full disk (`ArcProperties.CentreNeverPainted`).

## Model

| member | source | states |
|---|---|---|
| `Angles.CRem360` | src/drawarc.c:20-21 | C remainder by 360: lies strictly between -360 and 360, has the sign of the dividend, and is congruent to it mod 360 |
| `Angles.LiftNonNegative` | src/drawarc.c:23-24 | the add-360 loop ends non-negative and congruent to its input, leaves non-negative inputs alone, and lands below 360 from a negative input |
| `Angles.NormalizeStart` | src/drawarc.c:20-23 | normalised start lies in [0, 360) and is congruent to the input mod 360 |
| `Angles.NormalizeEnd` | src/drawarc.c:21-26 | normalised end lies in [1, 360], is congruent to the input, and is 360 exactly when the input is a multiple of 360 |
| `Angles.NormalizeStartIsResidue` | src/drawarc.c:20-23 | the C-remainder-plus-loop normalisation equals the Euclidean residue mod 360 for every input, negative ones included |
| `Angles.NormalizeEndIsResidue` | src/drawarc.c:21-26 | normalised end equals the Euclidean residue, with residue 0 read as 360 |
| `Angles.NormalizeFixesCanonical` | src/drawarc.c:20-26 | a start already in [0, 360) and an end already in [1, 360] are left unchanged |
| `Angles.NormalizeIdempotent` | src/drawarc.c:20-26 | normalising a normalised start or end changes nothing |
| `Arc.EffectiveEndSlope` | src/drawarc.c:29-31 | definition: the measured end slope, replaced by the integer sentinel -1000000 when the end is 360 |
| `Arc.InnerRadius2` | src/drawarc.c:33 | definition: the inner bound `(radius - thickness)²`, unclamped |
| `Arc.InAnnulus` | src/drawarc.c:39-43 | definition: the annulus test `ir2 <= x² + y² < or2` |
| `Arc.StartSide` | src/drawarc.c:45-49 | definition: the five start-side clauses, clause by clause, with `x <= y·sslope` and `x >= y·sslope` as opaque slope comparisons |
| `Arc.EndSide` | src/drawarc.c:52-56 | definition: the five end-side clauses, clause by clause, including the `start == 0` test of the last one |
| `Arc.Painted` | src/drawarc.c:36-59 | definition: the set of pixels centre + (x, y) over the scan square whose offset passes all three tests |
| `Arc.PaintedMembership` | src/drawarc.c:36-59 | a pixel is in the painted set exactly when its offset from the centre lies in the scan box and passes the annulus, start-side and end-side tests |
| `Arc.DrawArc` | src/drawarc.c:19-61 | the scan loop emits exactly the painted set, as centre + offset, in strictly increasing scan order (x outer, y inner), so each pixel is set once |
| `ArcProperties.PaintedWithinAnnulus` | src/drawarc.c:33-43 | every painted offset satisfies (radius-thickness)² <= x²+y² < radius², and so lies strictly inside (-radius, radius) on both axes |
| `ArcProperties.NonPositiveRadiusPaintsNothing` | src/drawarc.c:34-43 | a radius of zero or less paints no pixel |
| `ArcProperties.OverThickPaintsNothing` | src/drawarc.c:33-43 | a thickness of at least twice the radius paints no pixel |
| `ArcProperties.ThicknessIsNotClamped` | src/drawarc.c:33 | thickness 5 on a radius-3 full circle paints a different set from thickness 3, so thickness is not clamped to the radius |
| `ArcProperties.HorizontalRow` | src/drawarc.c:45-56 | on the centre row a pixel is painted iff it is in the box and annulus and either lies left of the centre with start <= 180 <= end, or lies right of it with start == 0; no slope is consulted |
| `ArcProperties.ZeroStartPaintsPositiveAxis` | src/drawarc.c:49-56 | with start 0, every centre-row pixel right of the centre inside the annulus is painted, whatever the end angle, because the last end-side clause tests `start == 0` |
| `ArcProperties.CentreNeverPainted` | src/drawarc.c:48-56 | the centre pixel is never painted |
| `ArcProperties.UpperHalfIgnoresStartSlope` | src/drawarc.c:47 | above the centre with start <= 180 the start-side test always passes; the annulus and the end side alone decide |
| `ArcProperties.LowerHalfIgnoresEndSlope` | src/drawarc.c:54 | below the centre with end >= 180 the end-side test always passes; the annulus and the start side alone decide |
| `ArcProperties.HalfPlaneContainment` | src/drawarc.c:45-56 | an end of at most 180 paints nothing above the centre row; a start of at least 180 paints nothing below it |
| `ArcProperties.FullTurnEndSideAcceptsOffRow` | src/drawarc.c:31-54 | with end normalised to 360, the end-side test accepts every offset below the centre row (by the end >= 180 clause, with no bound), and, through the sentinel slope -1000000, every box offset above it when radius < 1000000 |
| `ArcProperties.FullTurnPaintsAnnulus` | src/drawarc.c:19-61 | start 0 and end 360, with the infinite start slope of 0°, paint exactly the annulus minus the centre pixel |
| `DateLabel.Decimal` | src/mason.c:136 | decimal digits of a number: all digits, one digit exactly below 10, two exactly from 10 to 99 |
| `DateLabel.ZeroPad2` | src/mason.c:136 | `%02d` gives at least two digits, and exactly two below 100 |
| `DateLabel.Truncate` | src/mason.c:136 | snprintf keeps a prefix of at most size-1 characters: the whole text when it fits, exactly size-1 otherwise |
| `DateLabel.Format` | src/mason.c:16 | the label never exceeds the 6 characters the 7-byte buffer holds |
| `DateLabel.DecimalValue` | src/mason.c:136 | reading the decimal digits of n back gives n |
| `DateLabel.ZeroPad2Value` | src/mason.c:136 | the zero-padded digits still read back as n |
| `DateLabel.FormatShape` | src/mason.c:12-16 | for day 0..99, and so for every calendar day, the label is the weekday abbreviation, a space and two digits reading back as the day: exactly 6 characters |
| `Clock.MinutesAngle` | src/mason.c:51 | minute angle is 6 degrees per minute, in [0, 354] and a multiple of 6 for minutes 0..59 |
| `Clock.HoursAngle` | src/mason.c:65 | hour angle is half a degree per minute since the last 0:00/12:00, rounded down, in [0, 359] |
| `Clock.HandArcs` | src/mason.c:52-58 | every arc call issued for a hand has the hand's radius and thickness and is drawn white |
| `Clock.HandArcsCoverSweep` | src/mason.c:52-72 | for a sweep of 0..450 the rule issues one call when the sweep is at most 90, else two; each call runs forward (normalised start <= end); the first starts at 270; consecutive calls join; the normalised sweeps sum to the angle |
| `Clock.ConsistentMeansAtMostOne` | src/mason.c:148-153 | when the timer slot agrees with the timer service, at most one timer is scheduled, and one exactly when the slot is held |
| `Clock.MinuteTick` | src/mason.c:132-139 | the tick stores hour and minute, builds a 6-character label (weekday, space, day reading back as tm_mday), leaves connectivity and timers alone, and asks for a redraw |
| `Clock.ConnectionChanged` | src/mason.c:141-146 | after the handler the stored flag equals the argument; a redraw is asked for iff the value changed; nothing else changes |
| `Clock.Tap` | src/mason.c:148-153 | a tap with no pending timer schedules one, holds it and asks for a redraw; a tap while one is pending changes nothing and asks for nothing; timer consistency is kept |
| `Clock.TimerFired` | src/mason.c:29-32 | expiry empties the slot, removes the fired timer from the service and asks for a redraw; from a consistent state nothing is left scheduled |
| `Clock.Init` | src/mason.c:179-187 | the startup state holds the first tick's time and label and the peeked connectivity, with no timer |
| `Clock.Markers` | src/mason.c:79-90 | definition: the 12 marker circles and the black ring `(OUTER_RADIUS + 5, 5, 0, 360)` when a timer is pending, nothing otherwise |
| `Clock.HourDot` | src/mason.c:93-101 | definition: the white hour pointer, followed by the black PM hole when hours >= 12 |
| `Clock.Glyph` | src/mason.c:104-119 | definition: three concentric circles when connected, three concentric squares when not |
| `Clock.Render` | src/mason.c:42-130 | a render pass opens with the minute hand's arc calls, then the pattern, then the hour hand's arc calls; its white arc calls are exactly those of the two hands; it draws the ring (start 0, end 360) and all 12 markers iff a timer is pending; draws the PM hole iff hours >= 12; when connected draws the three concentric centre circles (black DOT_RADIUS+3, white DOT_RADIUS, black DOT_RADIUS-2) and no squares, otherwise the three concentric squares (black half-width DOT_RADIUS+4, white DOT_RADIUS, black DOT_RADIUS-2) and no centre circles; issues only forward arc calls; ends with the date label |
| `Clock.HandFacts` | src/mason.c:50-72 | in a composed pass the minute hand's calls come first, then the pattern, then the hour hand's calls, and no other white arc call appears |
| `Clock.RenderedHandsSweep` | src/mason.c:51-72 | for a valid face the minute hand's calls sweep 6 degrees per minute and the hour hand's calls sweep half a degree per minute of the half day |
| `Clock.MarkerFacts` | src/mason.c:79-90 | in a composed pass the ring and each of the 12 markers appear iff a timer is pending |
| `Clock.HourDotFacts` | src/mason.c:98-101 | in a composed pass the PM hole appears iff hours >= 12 |
| `Clock.GlyphFacts` | src/mason.c:104-119 | in a composed pass all three concentric centre circles appear when connected (with no rectangles), all three concentric squares when not (with no centre circles) |
| `Clock.ArcFacts` | src/mason.c:50-89 | in a composed pass of a valid face every arc call runs forward |
| `ClockProperties.Handle` | src/mason.c:182-185 | definition: each subscribed event goes to its handler (tick, connectivity, tap), and a fired timer to the callback registered at src/mason.c:150 |
| `ClockProperties.HandlePreservesTimerConsistency` | src/mason.c:148-153 | every deliverable event keeps the timer slot in step with the timer service |
| `ClockProperties.AtMostOneTimer` | src/mason.c:148-153 | over any run of deliverable events from a consistent state, at most one marker timer is ever scheduled |
| `ClockProperties.TapTapExpire` | src/mason.c:29-32 | tap shows markers with one timer; a second tap changes nothing; expiry hides them with no timer left |
| `ClockProperties.ShutdownAsWritten` | src/mason.c:200-202 | definition: teardown as written, which cancels only when the slot is empty |
| `ClockProperties.ShutdownAsWrittenKeepsPendingTimer` | src/mason.c:200-202 | the teardown as written leaves a pending marker timer scheduled |
| `ClockProperties.Shutdown` | src/mason.c:200-202 | definition: teardown with the guard corrected, cancelling the held timer |
| `ClockProperties.ShutdownCancelsEverything` | src/mason.c:200-202 | teardown with the guard corrected leaves no timer scheduled |
| `ClockExamples.HoursAnglePeriodic` | src/mason.c:65 | hours h and h+12 give the same hour angle |
| `ClockExamples.HoursAngleAtMidnightAndNoon` | src/mason.c:65 | 0:00 and 12:00 give hour angle 0 |
| `ClockExamples.HoursAngleAtThree` | src/mason.c:65 | 3:00 gives hour angle 90 |
| `ClockExamples.HoursAngleAtSix` | src/mason.c:65 | 6:00 gives hour angle 180 |
| `ClockExamples.HandArcsExamples` | src/mason.c:51-58 | a 90° hand is the single call (270, 360); minute 45 gives 270°, drawn as (270, 360) and (0, 180) |

## Left out

- Float slope computation (src/drawarc.c:28-29): the `cos_lookup`/`sin_lookup` quotients, including their division by zero at 0° and 180°, are not computed. The comparisons `x <= y·sslope` and `x >= y·eslope` are opaque. So properties that depend on slope values are not stated: which side of an oblique ray a pixel lies on, the partition of the ring by two complementary arcs, and containment of `draw_arc(0, 90)` in one quadrant. Only the slope-free half-plane facts are proved.
- Trig-derived positions: the 12 marker dots and the hour pointer (src/mason.c:81-83, 93-95) are symbolic places (`MarkerSlot(i)`, `HourPointer(minutes of the half day)`). Their `int16_t` casts are not modelled.
- Integer width: the model uses unbounded integers. In the C code `radius`, `thickness`, the offsets and the squares are 32-bit `int`, and `GPoint` coordinates are `int16_t`. So the code overflows in three places. `ir2 = (radius - thickness)²` at src/drawarc.c:33 overflows when |radius - thickness| > 46340, whatever the radius. `x2 + y2` at src/drawarc.c:43 overflows once the radius exceeds 32767; `or2` at src/drawarc.c:34 and each single square overflow once it exceeds 46340. `p.x + x` and `p.y + y` at src/drawarc.c:59 are narrowed to `int16_t` when the pixel is built. Overflow of a signed `int` is undefined in C, and narrowing is implementation-defined. The callers in src/mason.c use radius at most 70, thickness at most 55 and centre (72, 74), which stay far inside both widths.
- ArcProperties.OverThickPaintsNothing: stated for unbounded integers. When thickness - radius > 46340, the C square at src/drawarc.c:33 overflows: it is undefined, and in practice it wraps and may let the whole disk through. The empty result is not promised there.
- `ArcProperties.FullTurnEndSideAcceptsOffRow` and `ArcProperties.FullTurnPaintsAnnulus` compare against the sentinel as an integer. For offsets above the centre row they require radius < 1000000, where the float product `y * -1000000.0f` orders the same way as the integer one.
- Pixel colour: `graphics_draw_pixel` uses the stroke colour, which the rasterizer model does not carry. Render commands record the colour of each arc call instead.
- Platform plumbing: window, layers, inverter layer, bitmap compositing contents, fonts, resources, app-message and autoconfig handling (src/mason.c:34-40, 155-198), and the event loop. Events are modelled as an explicit sequence handled one at a time.
- The two hard-coded round-end pixels (src/mason.c:73-74) and the fixed text rectangle: cosmetic constants.
- Timer timing: the 3000 ms delay and the passage of time are not modelled. The model also assumes that `app_timer_register` returns a real handle, never NULL.
- Range guarantees of `struct tm` (hour 0..23, minute 0..59, weekday 0..6, day 1..31) are preconditions of the tick handler, not checked behaviour.
- Redraw coalescing: `layer_mark_dirty` is modelled as the `redraw` flag of each handler's result. Merging several dirty marks into one pass is not modelled.

## Findings

| source | as written | input that shows it | evidently intended | confidence | as-written member | corrected member |
|---|---|---|---|---|---|---|
| src/mason.c:200-202 | the teardown guard is negated: it cancels the marker timer only when no timer is held, which cancels NULL | tap the watch, then leave the app within 3 seconds: the pending timer is not cancelled | cancel the marker timer when one is held | not executed; the guard is plainly inverted, and the effect at exit is likely harmless | `ClockProperties.ShutdownAsWritten`, `ClockProperties.ShutdownAsWrittenKeepsPendingTimer` | `ClockProperties.Shutdown`, `ClockProperties.ShutdownCancelsEverything` |

=== FILE: angles.dfy ===
/** Angle normalisation performed at the head of the arc routine
    (src/drawarc.c:20-26): a C remainder by 360, an add-360 loop while the
    value is negative, and the promotion of an end angle of 0 to 360. */
module Angles {

  /** C's `%` by 360: it truncates toward zero, so the remainder takes the
      sign of the dividend. Dafny's `%` is Euclidean and appears only in
      contracts. */
  function CRem360(a: int): (r: int)
    ensures -360 < r < 360
    ensures a >= 0 ==> r >= 0
    ensures a <= 0 ==> r <= 0
    ensures (a - r) % 360 == 0
  {
    if a >= 0 then a % 360
    else
      var q := (-a) / 360;
      assert a - -((-a) % 360) == -360 * q;
      -((-a) % 360)
  }

  /** The loop `while (v < 0) v += 360`. */
  function LiftNonNegative(v: int): (r: int)
    ensures 0 <= r
    ensures (r - v) % 360 == 0
    ensures v >= 0 ==> r == v
    ensures v < 0 ==> r < 360
    decreases if v < 0 then -v else 0
  {
    if v < 0 then LiftNonNegative(v + 360) else v
  }

  /** The start angle as the arc routine sees it. */
  function NormalizeStart(a: int): (r: int)
    ensures 0 <= r < 360
    ensures (r - a) % 360 == 0
  {
    LiftNonNegative(CRem360(a))
  }

  /** The end angle as the arc routine sees it: reduced like the start, then
      0 becomes 360 so that a full turn differs from an empty sweep. */
  function NormalizeEnd(a: int): (r: int)
    ensures 1 <= r <= 360
    ensures (r - a) % 360 == 0
    ensures r == 360 <==> a % 360 == 0
  {
    var e := NormalizeStart(a);
    if e == 0 then 360 else e
  }

  /** Independent reference: the normalised start is the Euclidean residue. */
  lemma NormalizeStartIsResidue(a: int)
    ensures NormalizeStart(a) == a % 360
  {
    var r := NormalizeStart(a);
    assert (r - a) % 360 == 0;
    var k := (a - r) / 360;
    assert a == 360 * k + r;
  }

  /** Independent reference for the end angle: the residue, with 0 read as 360. */
  lemma NormalizeEndIsResidue(a: int)
    ensures NormalizeEnd(a) == if a % 360 == 0 then 360 else a % 360
  {
    NormalizeStartIsResidue(a);
  }

  /** Angles already in canonical form pass through unchanged. */
  lemma NormalizeFixesCanonical(a: int)
    ensures 0 <= a < 360 ==> NormalizeStart(a) == a
    ensures 1 <= a <= 360 ==> NormalizeEnd(a) == a
  {
    NormalizeStartIsResidue(a);
  }

  /** Normalising twice is the same as normalising once. */
  lemma NormalizeIdempotent(a: int)
    ensures NormalizeStart(NormalizeStart(a)) == NormalizeStart(a)
    ensures NormalizeEnd(NormalizeEnd(a)) == NormalizeEnd(a)
  {
    NormalizeFixesCanonical(NormalizeStart(a));
    NormalizeFixesCanonical(NormalizeEnd(a));
  }
}

=== FILE: arc.dfy ===
/** The arc rasterizer `graphics_draw_arc` (src/drawarc.c:19-61).

    Screen coordinates: y grows downward, 0 degrees points along +x and angles
    grow clockwise on screen, so 90 is straight down and 270 straight up.
    The routine scans the square [-radius, radius]^2 of offsets around the
    centre and sets the pixel centre + offset when the offset passes an
    annulus test and two half-plane tests, one for each boundary ray. */
module Arc {
  import opened Angles

  datatype Point = Point(x: int, y: int)

  /** A boundary slope cos(angle) / sin(angle). The routine computes it in
      floating point from trig lookup tables, which this model does not
      see; a measured slope is known only through `compare`, whose sign is
      the sign of x - y * slope. The one slope the routine fixes itself is
      the integer sentinel used for a full-turn end angle. */
  datatype Slope =
    | Measured(compare: (int, int) -> int)
    | Integer(k: int)

  /** x <= y * slope */
  predicate AtMost(s: Slope, x: int, y: int)
  {
    match s
    case Measured(c) => c(x, y) <= 0
    case Integer(k) => x <= y * k
  }

  /** x >= y * slope */
  predicate AtLeast(s: Slope, x: int, y: int)
  {
    match s
    case Measured(c) => c(x, y) >= 0
    case Integer(k) => x >= y * k
  }

  /** The value stored in `eslope` when the end angle is a full turn. */
  const EndSentinel: int := -1000000

  /** One call of the routine: centre, outer radius, thickness, and the
      start and end angles as the caller passed them. */
  datatype ArcSpec = ArcSpec(center: Point, radius: int, thickness: int, start: int, end: int)

  /** The two slopes the routine measures from the normalised start and
      end angles. */
  datatype Slopes = Slopes(start: Slope, end: Slope)

  /** The end slope actually compared against: the measured one, except
      that a normalised end of 360 uses the sentinel. */
  function EffectiveEndSlope(e: int, measured: Slope): Slope
  {
    if e == 360 then Integer(EndSentinel) else measured
  }

  /** Squared inner radius; the thickness is not clamped. */
  function InnerRadius2(a: ArcSpec): int
  {
    (a.radius - a.thickness) * (a.radius - a.thickness)
  }

  function OuterRadius2(a: ArcSpec): int
  {
    a.radius * a.radius
  }

  /** Inclusive inner bound, exclusive outer bound. */
  predicate InAnnulus(a: ArcSpec, x: int, y: int)
  {
    InnerRadius2(a) <= x * x + y * y < OuterRadius2(a)
  }

  /** The offset lies on the side of the start ray swept into. */
  predicate StartSide(x: int, y: int, s: int, ss: Slope)
  {
    || (y > 0 && s < 180 && AtMost(ss, x, y))
    || (y < 0 && s > 180 && AtLeast(ss, x, y))
    || (y < 0 && s <= 180)
    || (y == 0 && s <= 180 && x < 0)
    || (y == 0 && s == 0 && x > 0)
  }

  /** The offset lies on the side of the end ray swept up to. The last
      clause tests the start angle, not the end angle, as the routine does. */
  predicate EndSide(x: int, y: int, s: int, e: int, es: Slope)
  {
    || (y > 0 && e < 180 && AtLeast(es, x, y))
    || (y < 0 && e > 180 && AtMost(es, x, y))
    || (y > 0 && e >= 180)
    || (y == 0 && e >= 180 && x < 0)
    || (y == 0 && s == 0 && x > 0)
  }

  /** The scan box [-radius, radius]^2. */
  predicate InBox(a: ArcSpec, x: int, y: int)
  {
    -a.radius <= x <= a.radius && -a.radius <= y <= a.radius
  }

  /** The full per-offset test of the scan loop. */
  predicate Accepts(a: ArcSpec, sl: Slopes, x: int, y: int)
  {
    var s := NormalizeStart(a.start);
    var e := NormalizeEnd(a.end);
    && InAnnulus(a, x, y)
    && StartSide(x, y, s, sl.start)
    && EndSide(x, y, s, e, EffectiveEndSlope(e, sl.end))
  }

  /** The pixel q is set by the call: its offset from the centre lies in the
      scan box and passes the test. */
  predicate Lit(a: ArcSpec, sl: Slopes, q: Point)
  {
    var x := q.x - a.center.x;
    var y := q.y - a.center.y;
    InBox(a, x, y) && Accepts(a, sl, x, y)
  }

  /** The set of pixels the call sets. */
  function Painted(a: ArcSpec, sl: Slopes): set<Point>
  {
    set x, y | -a.radius <= x <= a.radius && -a.radius <= y <= a.radius && Accepts(a, sl, x, y)
      :: Point(a.center.x + x, a.center.y + y)
  }

  /** Scan order of the routine: x in the outer loop, y in the inner one. */
  predicate ScanBefore(p: Point, q: Point)
  {
    p.x < q.x || (p.x == q.x && p.y < q.y)
  }

  predicate ScanSorted(ps: seq<Point>)
  {
    forall i, j :: 0 <= i < j < |ps| ==> ScanBefore(ps[i], ps[j])
  }

  /** Membership in the painted set is exactly the per-pixel test. */
  lemma PaintedMembership(a: ArcSpec, sl: Slopes, q: Point)
    ensures q in Painted(a, sl) <==> Lit(a, sl, q)
  {
    if Lit(a, sl, q) {
      var x := q.x - a.center.x;
      var y := q.y - a.center.y;
      assert q == Point(a.center.x + x, a.center.y + y);
    }
  }

  /** The scan loop. Pixels come out in scan order, so each one is set at
      most once, and they are exactly the painted set. */
  method DrawArc(a: ArcSpec, sl: Slopes) returns (pixels: seq<Point>)
    ensures forall q :: q in pixels <==> q in Painted(a, sl)
    ensures ScanSorted(pixels)
  {
    var s := NormalizeStart(a.start);
    var e := NormalizeEnd(a.end);
    var es := EffectiveEndSlope(e, sl.end);
    var ir2 := (a.radius - a.thickness) * (a.radius - a.thickness);
    var or2 := a.radius * a.radius;
    var cx, cy := a.center.x, a.center.y;
    pixels := [];
    var x := -a.radius;
    while x <= a.radius
      invariant -a.radius <= x
      invariant x <= a.radius + 1 || x == -a.radius
      invariant forall q :: q in pixels <==> Lit(a, sl, q) && q.x - cx < x
      invariant ScanSorted(pixels)
    {
      var y := -a.radius;
      while y <= a.radius
        invariant -a.radius <= y <= a.radius + 1
        invariant forall q :: q in pixels <==>
          Lit(a, sl, q) && (q.x - cx < x || (q.x - cx == x && q.y - cy < y))
        invariant ScanSorted(pixels)
      {
        var d2 := x * x + y * y;
        if d2 < or2 && d2 >= ir2 && StartSide(x, y, s, sl.start) && EndSide(x, y, s, e, es) {
          var q := Point(cx + x, cy + y);
          assert Lit(a, sl, q);
          pixels := pixels + [q];
        }
        y := y + 1;
      }
      x := x + 1;
    }
    forall q | q in Painted(a, sl)
      ensures q in pixels
    {
      PaintedMembership(a, sl, q);
    }
    forall q | q in pixels
      ensures q in Painted(a, sl)
    {
      PaintedMembership(a, sl, q);
    }
  }
}

=== FILE: arc_properties.dfy ===
/** Properties of the arc rasterizer that hold whatever the measured
    slopes are, plus the full-turn case where the start slope is the
    infinite cos 0 / sin 0. */
module ArcProperties {
  import opened Angles
  import opened Arc

  /** Squares grow away from zero: outside (-r, r) the square is at least
      r^2. */
  lemma SquareOutside(x: int, r: int)
    requires 0 <= r
    ensures x >= r || x <= -r ==> x * x >= r * r
  {
    if x >= r {
      assert x * x >= r * x >= r * r;
    } else if x <= -r {
      assert x * x == (-x) * (-x) >= r * (-x) >= r * r;
    }
  }

  /** Every painted pixel is centre + (x, y) with (x, y) inside the annulus,
      and strictly inside the scan box. */
  lemma PaintedWithinAnnulus(a: ArcSpec, sl: Slopes, q: Point)
    ensures q in Painted(a, sl) ==>
      var x, y := q.x - a.center.x, q.y - a.center.y;
      && InnerRadius2(a) <= x * x + y * y < a.radius * a.radius
      && -a.radius < x < a.radius
      && -a.radius < y < a.radius
  {
    PaintedMembership(a, sl, q);
    if q in Painted(a, sl) {
      var x, y := q.x - a.center.x, q.y - a.center.y;
      assert x * x < a.radius * a.radius by {
        assert y * y >= 0;
      }
      assert y * y < a.radius * a.radius by {
        assert x * x >= 0;
      }
      SquareOutside(x, a.radius);
      SquareOutside(y, a.radius);
    }
  }

  /** A radius of zero or less paints nothing. */
  lemma NonPositiveRadiusPaintsNothing(a: ArcSpec, sl: Slopes)
    requires a.radius <= 0
    ensures Painted(a, sl) == {}
  {
    forall q | q in Painted(a, sl)
      ensures false
    {
      PaintedMembership(a, sl, q);
    }
  }

  /** With thickness at least twice the radius the inner bound reaches past
      the outer one, so nothing is painted. */
  lemma OverThickPaintsNothing(a: ArcSpec, sl: Slopes)
    requires a.thickness >= 2 * a.radius
    ensures Painted(a, sl) == {}
  {
    if a.radius <= 0 {
      NonPositiveRadiusPaintsNothing(a, sl);
    } else {
      var d := a.thickness - a.radius;
      assert d >= a.radius > 0;
      assert InnerRadius2(a) >= OuterRadius2(a) by {
        assert InnerRadius2(a) == d * d;
        assert d * d >= d * a.radius >= a.radius * a.radius;
      }
      forall q | q in Painted(a, sl)
        ensures false
      {
        PaintedMembership(a, sl, q);
      }
    }
  }

  /** The thickness is not clamped to the radius: a thickness of 5 on a
      radius-3 full circle leaves a hole that a thickness of 3 does not. */
  lemma ThicknessIsNotClamped(c: Point, sl: Slopes)
    ensures Painted(ArcSpec(c, 3, 5, 0, 360), sl) != Painted(ArcSpec(c, 3, 3, 0, 360), sl)
  {
    var q := Point(c.x - 1, c.y);
    PaintedMembership(ArcSpec(c, 3, 5, 0, 360), sl, q);
    PaintedMembership(ArcSpec(c, 3, 3, 0, 360), sl, q);
    assert q !in Painted(ArcSpec(c, 3, 5, 0, 360), sl);
    assert q in Painted(ArcSpec(c, 3, 3, 0, 360), sl);
  }

  /** On the centre row the decision does not depend on any slope: a pixel
      left of the centre needs start <= 180 <= end, a pixel right of it
      needs start == 0, and the centre itself is never painted. */
  lemma HorizontalRow(a: ArcSpec, sl: Slopes, q: Point)
    requires q.y == a.center.y
    ensures q in Painted(a, sl) <==>
      var x, s, e := q.x - a.center.x, NormalizeStart(a.start), NormalizeEnd(a.end);
      && InBox(a, x, 0) && InAnnulus(a, x, 0)
      && ((x < 0 && s <= 180 && e >= 180) || (x > 0 && s == 0))
  {
    PaintedMembership(a, sl, q);
  }

  /** With start 0 the positive x axis is painted inside the annulus,
      whatever the end angle: the last end-side clause repeats the start
      side's `start == 0` test, where a test of the end angle could never
      pass because the end is normalised into [1, 360]. */
  lemma ZeroStartPaintsPositiveAxis(a: ArcSpec, sl: Slopes, q: Point)
    requires NormalizeStart(a.start) == 0
    requires q.y == a.center.y && 0 < q.x - a.center.x < a.radius
    requires InnerRadius2(a) <= (q.x - a.center.x) * (q.x - a.center.x)
    ensures q in Painted(a, sl)
  {
    var x := q.x - a.center.x;
    SquareBelow(x, a.radius);
    assert InBox(a, x, 0) && InAnnulus(a, x, 0);
    HorizontalRow(a, sl, q);
  }

  /** Squares keep the order of positive numbers. */
  lemma SquareBelow(x: int, r: int)
    requires 0 < x < r
    ensures x * x < r * r
  {
    assert x * x < x * r;
    assert x * r < r * r;
  }

  /** The centre pixel is never set, not even for a full disk. */
  lemma CentreNeverPainted(a: ArcSpec, sl: Slopes)
    ensures a.center !in Painted(a, sl)
  {
    HorizontalRow(a, sl, a.center);
  }

  /** Above the centre with start <= 180 the start-side test always passes,
      so only the annulus and the end side decide. */
  lemma UpperHalfIgnoresStartSlope(a: ArcSpec, sl: Slopes, q: Point)
    requires q.y < a.center.y
    requires NormalizeStart(a.start) <= 180
    ensures q in Painted(a, sl) <==>
      var x, y, s, e := q.x - a.center.x, q.y - a.center.y, NormalizeStart(a.start), NormalizeEnd(a.end);
      InBox(a, x, y) && InAnnulus(a, x, y) && EndSide(x, y, s, e, EffectiveEndSlope(e, sl.end))
  {
    PaintedMembership(a, sl, q);
  }

  /** Below the centre with end >= 180 the end-side test always passes, so
      only the annulus and the start side decide. */
  lemma LowerHalfIgnoresEndSlope(a: ArcSpec, sl: Slopes, q: Point)
    requires q.y > a.center.y
    requires NormalizeEnd(a.end) >= 180
    ensures q in Painted(a, sl) <==>
      var x, y, s := q.x - a.center.x, q.y - a.center.y, NormalizeStart(a.start);
      InBox(a, x, y) && InAnnulus(a, x, y) && StartSide(x, y, s, sl.start)
  {
    PaintedMembership(a, sl, q);
  }

  /** An end angle of at most 180 paints nothing above the centre row, and
      a start angle of at least 180 paints nothing below it. */
  lemma HalfPlaneContainment(a: ArcSpec, sl: Slopes, q: Point)
    ensures q in Painted(a, sl) && NormalizeEnd(a.end) <= 180 ==> q.y >= a.center.y
    ensures q in Painted(a, sl) && NormalizeStart(a.start) >= 180 ==> q.y <= a.center.y
  {
    PaintedMembership(a, sl, q);
  }

  /** When the end normalises to 360 the end-side test accepts every
      offset off the centre row: below it by the end >= 180 clause alone,
      above it because the sentinel slope gives x <= -1000000 * y whenever
      |x| <= radius < 1000000. */
  lemma FullTurnEndSideAcceptsOffRow(a: ArcSpec, sl: Slopes, x: int, y: int)
    requires NormalizeEnd(a.end) == 360
    ensures y > 0 ==> EndSide(x, y, NormalizeStart(a.start), 360, EffectiveEndSlope(360, sl.end))
    ensures y < 0 && a.radius < 1000000 && InBox(a, x, y) ==>
      EndSide(x, y, NormalizeStart(a.start), 360, EffectiveEndSlope(360, sl.end))
  {
    if y < 0 && a.radius < 1000000 && InBox(a, x, y) {
      assert y * EndSentinel >= 1000000 by {
        assert y * EndSentinel == (-y) * 1000000;
      }
      assert AtMost(Integer(EndSentinel), x, y);
    }
  }

  /** A full turn (start 0, end 360) whose measured start slope is the
      infinite cos 0 / sin 0 paints exactly the annulus without its centre. */
  lemma FullTurnPaintsAnnulus(a: ArcSpec, sl: Slopes, q: Point)
    requires NormalizeStart(a.start) == 0 && NormalizeEnd(a.end) == 360
    requires forall x, y :: y > 0 ==> AtMost(sl.start, x, y)
    requires 0 < a.radius < 1000000
    ensures q in Painted(a, sl) <==>
      InAnnulus(a, q.x - a.center.x, q.y - a.center.y) && q != a.center
  {
    var x, y := q.x - a.center.x, q.y - a.center.y;
    PaintedMembership(a, sl, q);
    if InAnnulus(a, x, y) && q != a.center {
      assert x * x < a.radius * a.radius && y * y < a.radius * a.radius by {
        assert x * x >= 0 && y * y >= 0;
      }
      SquareOutside(x, a.radius);
      SquareOutside(y, a.radius);
      if y != 0 {
        FullTurnEndSideAcceptsOffRow(a, sl, x, y);
      }
      assert Lit(a, sl, q);
    }
  }
}

=== FILE: clock.dfy ===
/** The clock-face composer of src/mason.c: hand angles, the rule that
    splits a hand into arc calls that never wrap past 0 degrees, the face
    state with its event handlers, and the render pass as a list of
    abstract draw commands. Positions derived from the trig tables are
    left symbolic. */
module Clock {
  import opened Angles
  import opened Arc
  import DateLabel

  const OuterRadius: int := 65
  const OuterThickness: int := 4
  const InnerRadius: int := 55
  const DotRadius: int := 6
  /** Set once at startup. */
  const Center: Point := Point(72, 74)

  // ---------------------------------------------------------------- angles

  /** Sweep of the minute hand, in degrees (src/mason.c:51). */
  function MinutesAngle(minutes: nat): (r: int)
    ensures r == 6 * minutes
    ensures minutes < 60 ==> 0 <= r <= 354 && r % 6 == 0
  {
    assert 360 * minutes == 60 * (6 * minutes);
    360 * minutes / 60
  }

  /** Minutes elapsed since the last 0:00 or 12:00. */
  function HalfDayMinutes(hours: nat, minutes: nat): nat
  {
    (hours % 12) * 60 + minutes
  }

  /** Sweep of the hour hand, in degrees (src/mason.c:65): half a degree
      per minute of the half day, rounded down. */
  function HoursAngle(hours: nat, minutes: nat): (r: int)
    ensures r == HalfDayMinutes(hours, minutes) / 2
    ensures minutes < 60 ==> 0 <= r <= 359
  {
    var k := HalfDayMinutes(hours, minutes);
    assert 360 * k / 720 == k / 2;
    360 * k / (12 * 60)
  }

  // --------------------------------------------------------- draw commands

  datatype Color = Black | White

  /** Where a filled circle goes: a concrete point, or one of the positions
      the source derives from the trig tables (marker i of 12, or the hour
      pointer at a given minute of the half day), left symbolic. */
  datatype Place = At(p: Point) | MarkerSlot(i: int) | HourPointer(halfDayMinutes: int)

  datatype DrawCmd =
    | ArcCmd(radius: int, thickness: int, start: int, end: int, color: Color)   // centred on Center
    | Pattern                                                                   // the AND-composited bitmap
    | FillCircle(at: Place, radius: int, color: Color)
    | FillRect(origin: Point, width: int, height: int, color: Color)
    | Text(caption: string)

  /** The arc calls for a hand of the given sweep (src/mason.c:52-58 and
      66-72): one call from 270 when the sweep stays within 90 degrees,
      otherwise 270..360 followed by 0..sweep-90. */
  function HandArcs(angle: int, radius: int, thickness: int): (r: seq<DrawCmd>)
    ensures forall c :: c in r ==> c.ArcCmd? && c.radius == radius && c.thickness == thickness && c.color == White
  {
    if angle <= 90 then
      [ArcCmd(radius, thickness, 270, 270 + angle, White)]
    else
      [ArcCmd(radius, thickness, 270, 360, White), ArcCmd(radius, thickness, 0, angle - 90, White)]
  }

  /** Degrees the rasterizer sweeps for one arc call. */
  function Sweep(c: DrawCmd): int
    requires c.ArcCmd?
  {
    NormalizeEnd(c.end) - NormalizeStart(c.start)
  }

  function TotalSweep(cs: seq<DrawCmd>): int
    requires forall c :: c in cs ==> c.ArcCmd?
  {
    if cs == [] then 0 else Sweep(cs[0]) + TotalSweep(cs[1..])
  }

  /** An arc call the rasterizer handles without wrapping past 0 degrees. */
  predicate NonWrapping(c: DrawCmd)
  {
    c.ArcCmd? ==> NormalizeStart(c.start) <= NormalizeEnd(c.end)
  }

  /** For every sweep from 0 to 450 the split calls each run forward, start
      at 12 o'clock, join end to start, and together sweep exactly the
      hand's angle. */
  lemma HandArcsCoverSweep(angle: int, radius: int, thickness: int)
    requires 0 <= angle <= 450
    ensures var r := HandArcs(angle, radius, thickness);
      && |r| == (if angle <= 90 then 1 else 2)
      && (forall c :: c in r ==> NonWrapping(c))
      && NormalizeStart(r[0].start) == 270
      && (forall i :: 0 <= i < |r| - 1 ==> NormalizeEnd(r[i].end) % 360 == NormalizeStart(r[i + 1].start))
      && TotalSweep(r) == angle
  {
    var r := HandArcs(angle, radius, thickness);
    NormalizeFixesCanonical(270);
    NormalizeFixesCanonical(0);
    if angle <= 90 {
      NormalizeFixesCanonical(270 + angle);
      assert TotalSweep(r) == Sweep(r[0]) + TotalSweep(r[1..]);
      assert r[1..] == [];
    } else {
      NormalizeFixesCanonical(360);
      NormalizeFixesCanonical(angle - 90);
      assert TotalSweep(r) == Sweep(r[0]) + TotalSweep(r[1..]);
      assert TotalSweep(r[1..]) == Sweep(r[1]) + TotalSweep(r[2..]);
      assert r[2..] == [];
    }
  }

  // ------------------------------------------------------------ face state

  /** Handle returned by the timer service. */
  type TimerHandle = nat

  /** The marker timer slot: empty, or holding the pending one-shot timer. */
  datatype Timer = Idle | Pending(handle: TimerHandle)

  /** The composer's state. `scheduled` is the timer service's view: the
      one-shot timers registered and not yet fired or cancelled. */
  datatype Face = Face(
    hours: nat,
    minutes: nat,
    date: string,
    connected: bool,
    markers: Timer,
    scheduled: multiset<TimerHandle>)

  /** A handler's result: the new state and whether it marked the layer
      dirty, which asks for one render pass. */
  datatype Step = Step(face: Face, redraw: bool)

  /** The fields of `struct tm` the tick handler reads. */
  datatype Tm = Tm(hour: int, min: int, wday: int, mday: int)

  /** The ranges the platform guarantees for a `struct tm`. */
  predicate ValidTm(t: Tm)
  {
    0 <= t.hour < 24 && 0 <= t.min < 60 && 0 <= t.wday < 7 && 1 <= t.mday <= 31
  }

  predicate ValidFace(f: Face)
  {
    f.hours < 24 && f.minutes < 60
  }

  /** The timer slot agrees with the timer service: nothing is scheduled
      when the slot is empty, and exactly the held timer when it is not. */
  predicate TimerConsistent(f: Face)
  {
    match f.markers
    case Idle => f.scheduled == multiset{}
    case Pending(h) => f.scheduled == multiset{h}
  }

  lemma ConsistentMeansAtMostOne(f: Face)
    requires TimerConsistent(f)
    ensures |f.scheduled| <= 1
    ensures |f.scheduled| == 1 <==> f.markers.Pending?
  {
  }

  /** `handle_minute_tick` (src/mason.c:132-139). */
  function MinuteTick(f: Face, t: Tm): (r: Step)
    requires ValidTm(t)
    ensures r.redraw && ValidFace(r.face)
    ensures r.face.hours == t.hour && r.face.minutes == t.min
    ensures |r.face.date| == 6 && r.face.date[..3] == DateLabel.Days[t.wday] && r.face.date[3] == ' '
    ensures DateLabel.AllDigits(r.face.date[4..]) && DateLabel.Value(r.face.date[4..]) == t.mday
    ensures r.face.connected == f.connected && r.face.markers == f.markers && r.face.scheduled == f.scheduled
  {
    DateLabel.FormatShape(t.wday, t.mday);
    Step(f.(hours := t.hour, minutes := t.min, date := DateLabel.Format(t.wday, t.mday)), true)
  }

  /** `bluetooth_connection_handler` (src/mason.c:141-146): store the flag
      and ask for a redraw only when it changes. */
  function ConnectionChanged(f: Face, connected: bool): (r: Step)
    ensures r.face.connected == connected
    ensures r.redraw <==> f.connected != connected
    ensures r.face.(connected := f.connected) == f
  {
    if f.connected != connected then Step(f.(connected := connected), true) else Step(f, false)
  }

  /** `accel_tap_handler` (src/mason.c:148-153). `h` is the handle the
      timer service hands out when a timer is registered. A tap while a
      timer is pending changes nothing. */
  function Tap(f: Face, h: TimerHandle): (r: Step)
    ensures f.markers.Idle? ==>
      r.face == f.(markers := Pending(h), scheduled := f.scheduled + multiset{h}) && r.redraw
    ensures f.markers.Pending? ==> r == Step(f, false)
    ensures TimerConsistent(f) ==> TimerConsistent(r.face)
  {
    if f.markers.Idle? then
      Step(f.(markers := Pending(h), scheduled := f.scheduled + multiset{h}), true)
    else
      Step(f, false)
  }

  /** `timer_callback` (src/mason.c:29-32): the service fires a scheduled
      timer once; the slot is cleared and a redraw requested. */
  function TimerFired(f: Face, h: TimerHandle): (r: Step)
    requires h in f.scheduled
    ensures r.redraw && r.face.markers.Idle?
    ensures r.face.scheduled == f.scheduled - multiset{h}
    ensures r.face.(markers := f.markers, scheduled := f.scheduled) == f
    ensures TimerConsistent(f) ==> TimerConsistent(r.face) && r.face.scheduled == multiset{}
  {
    Step(f.(markers := Idle, scheduled := f.scheduled - multiset{h}), true)
  }

  /** The static initial values (src/mason.c:14-16, 25, 27). */
  const Statics: Face := Face(0, 0, "XXX XX", false, Idle, multiset{})

  /** State after startup (src/mason.c:179-187): the first tick, then the
      connectivity read straight from the platform, with no timer. */
  function Init(t: Tm, connected: bool): (f: Face)
    requires ValidTm(t)
    ensures TimerConsistent(f) && f.markers.Idle? && ValidFace(f)
    ensures f.connected == connected
    ensures f.hours == t.hour && f.minutes == t.min && f.date == DateLabel.Format(t.wday, t.mday)
  {
    MinuteTick(Statics, t).face.(connected := connected)
  }

  // ------------------------------------------------------------ the render

  /** The twelve hour markers (src/mason.c:80-86). */
  function MarkerDots(): seq<DrawCmd>
  {
    seq(12, i => FillCircle(MarkerSlot(i), DotRadius - 2, White))
  }

  /** The ring drawn around the markers (src/mason.c:88-89). */
  const MarkerRing: DrawCmd := ArcCmd(OuterRadius + 5, 5, 0, 360, Black)

  /** The hour pointer, with its PM hole (src/mason.c:93-101). */
  function HourDot(f: Face): seq<DrawCmd>
  {
    var at := HourPointer(HalfDayMinutes(f.hours, f.minutes));
    [FillCircle(at, DotRadius, White)] + (if f.hours >= 12 then [FillCircle(at, DotRadius - 2, Black)] else [])
  }

  /** The square of half-width w around the centre. */
  function CenteredRect(w: int, color: Color): DrawCmd
  {
    FillRect(Point(Center.x - w, Center.y - w), 2 * w, 2 * w, color)
  }

  /** The connectivity glyph (src/mason.c:104-119): concentric circles when
      connected, concentric squares when not. */
  function Glyph(connected: bool): seq<DrawCmd>
  {
    if connected then
      [FillCircle(At(Center), DotRadius + 3, Black), FillCircle(At(Center), DotRadius, White), FillCircle(At(Center), DotRadius - 2, Black)]
    else
      [CenteredRect(DotRadius + 4, Black), CenteredRect(DotRadius, White), CenteredRect(DotRadius - 2, Black)]
  }

  predicate IsCentreCircle(c: DrawCmd)
  {
    c.FillCircle? && c.at.At?
  }

  function MinuteArcs(f: Face): seq<DrawCmd>
  {
    HandArcs(MinutesAngle(f.minutes), InnerRadius, InnerRadius)
  }

  function HourArcs(f: Face): seq<DrawCmd>
  {
    HandArcs(HoursAngle(f.hours, f.minutes), OuterRadius, OuterThickness)
  }

  /** Markers and ring, drawn only while the marker timer is pending
      (src/mason.c:79-90). */
  function Markers(f: Face): seq<DrawCmd>
  {
    if f.markers.Pending? then MarkerDots() + [MarkerRing] else []
  }

  /** One pass of `update_layer_callback` (src/mason.c:42-130), in drawing
      order. */
  function Render(f: Face): (r: seq<DrawCmd>)
    ensures |r| > |MinuteArcs(f)| + 1 + |HourArcs(f)|
    ensures r[..|MinuteArcs(f)|] == HandArcs(MinutesAngle(f.minutes), InnerRadius, InnerRadius)
    ensures r[|MinuteArcs(f)|] == Pattern
    ensures r[|MinuteArcs(f)| + 1..|MinuteArcs(f)| + 1 + |HourArcs(f)|] == HandArcs(HoursAngle(f.hours, f.minutes), OuterRadius, OuterThickness)
    ensures forall c :: c in r && c.ArcCmd? && c.color == White <==> c in MinuteArcs(f) + HourArcs(f)
    ensures MarkerRing in r <==> f.markers.Pending?
    ensures forall i :: 0 <= i < 12 ==> (FillCircle(MarkerSlot(i), DotRadius - 2, White) in r <==> f.markers.Pending?)
    ensures FillCircle(HourPointer(HalfDayMinutes(f.hours, f.minutes)), DotRadius - 2, Black) in r <==> f.hours >= 12
    ensures f.connected ==> FillCircle(At(Center), DotRadius + 3, Black) in r && forall c :: c in r ==> !c.FillRect?
    ensures !f.connected ==> CenteredRect(DotRadius + 4, Black) in r && forall c :: c in r ==> !IsCentreCircle(c)
    ensures f.connected ==> FillCircle(At(Center), DotRadius, White) in r && FillCircle(At(Center), DotRadius - 2, Black) in r
    ensures !f.connected ==> CenteredRect(DotRadius, White) in r && CenteredRect(DotRadius - 2, Black) in r
    ensures ValidFace(f) ==> forall c :: c in r ==> NonWrapping(c)
    ensures r[|r| - 1] == Text(f.date)
  {
    var r := MinuteArcs(f) + [Pattern] + HourArcs(f) + Markers(f) + HourDot(f) + Glyph(f.connected) + [Text(f.date)];
    ComposedMembership(f, r);
    MarkerFacts(f, r);
    HourDotFacts(f, r);
    GlyphFacts(f, r);
    ArcFacts(f, r);
    HandFacts(f, r);
    r
  }

  predicate Composed(f: Face, r: seq<DrawCmd>)
  {
    r == MinuteArcs(f) + [Pattern] + HourArcs(f) + Markers(f) + HourDot(f) + Glyph(f.connected) + [Text(f.date)]
  }

  predicate InParts(f: Face, c: DrawCmd)
  {
    || c in MinuteArcs(f) || c == Pattern || c in HourArcs(f) || c in Markers(f)
    || c in HourDot(f) || c in Glyph(f.connected) || c == Text(f.date)
  }

  lemma ComposedMembership(f: Face, r: seq<DrawCmd>)
    requires Composed(f, r)
    ensures forall c :: c in r <==> InParts(f, c)
    ensures r[|r| - 1] == Text(f.date)
  {
  }

  lemma MarkerFacts(f: Face, r: seq<DrawCmd>)
    requires Composed(f, r)
    requires forall c :: c in r <==> InParts(f, c)
    ensures MarkerRing in r <==> f.markers.Pending?
    ensures forall i :: 0 <= i < 12 ==> (FillCircle(MarkerSlot(i), DotRadius - 2, White) in r <==> f.markers.Pending?)
  {
    var m := Markers(f);
    if f.markers.Pending? {
      assert MarkerRing == m[12];
      forall i | 0 <= i < 12
        ensures FillCircle(MarkerSlot(i), DotRadius - 2, White) in r
      {
        assert m[i] == FillCircle(MarkerSlot(i), DotRadius - 2, White);
      }
    }
  }

  lemma HourDotFacts(f: Face, r: seq<DrawCmd>)
    requires Composed(f, r)
    requires forall c :: c in r <==> InParts(f, c)
    ensures FillCircle(HourPointer(HalfDayMinutes(f.hours, f.minutes)), DotRadius - 2, Black) in r <==> f.hours >= 12
  {
    var hole := FillCircle(HourPointer(HalfDayMinutes(f.hours, f.minutes)), DotRadius - 2, Black);
    if f.hours >= 12 {
      assert hole == HourDot(f)[1];
    }
  }

  lemma GlyphFacts(f: Face, r: seq<DrawCmd>)
    requires Composed(f, r)
    requires forall c :: c in r <==> InParts(f, c)
    ensures f.connected ==> FillCircle(At(Center), DotRadius + 3, Black) in r && forall c :: c in r ==> !c.FillRect?
    ensures !f.connected ==> CenteredRect(DotRadius + 4, Black) in r && forall c :: c in r ==> !IsCentreCircle(c)
    ensures f.connected ==> FillCircle(At(Center), DotRadius, White) in r && FillCircle(At(Center), DotRadius - 2, Black) in r
    ensures !f.connected ==> CenteredRect(DotRadius, White) in r && CenteredRect(DotRadius - 2, Black) in r
  {
    var g := Glyph(f.connected);
    assert g[0] in r && g[1] in r && g[2] in r;
  }

  lemma HandFacts(f: Face, r: seq<DrawCmd>)
    requires Composed(f, r)
    requires forall c :: c in r <==> InParts(f, c)
    ensures |r| > |MinuteArcs(f)| + 1 + |HourArcs(f)|
    ensures r[..|MinuteArcs(f)|] == MinuteArcs(f)
    ensures r[|MinuteArcs(f)|] == Pattern
    ensures r[|MinuteArcs(f)| + 1..|MinuteArcs(f)| + 1 + |HourArcs(f)|] == HourArcs(f)
    ensures forall c :: c in r && c.ArcCmd? && c.color == White <==> c in MinuteArcs(f) + HourArcs(f)
  {
    var m, h := MinuteArcs(f), HourArcs(f);
    assert r == m + ([Pattern] + h) + (Markers(f) + HourDot(f) + Glyph(f.connected) + [Text(f.date)]);
  }

  /** The hands a render pass draws sweep exactly the minute and hour
      angles of the face. */
  lemma RenderedHandsSweep(f: Face)
    requires ValidFace(f)
    ensures TotalSweep(MinuteArcs(f)) == MinutesAngle(f.minutes) == 6 * f.minutes
    ensures TotalSweep(HourArcs(f)) == HoursAngle(f.hours, f.minutes) == HalfDayMinutes(f.hours, f.minutes) / 2
  {
    HandArcsCoverSweep(MinutesAngle(f.minutes), InnerRadius, InnerRadius);
    HandArcsCoverSweep(HoursAngle(f.hours, f.minutes), OuterRadius, OuterThickness);
  }

  lemma ArcFacts(f: Face, r: seq<DrawCmd>)
    requires Composed(f, r)
    requires forall c :: c in r <==> InParts(f, c)
    ensures ValidFace(f) ==> forall c :: c in r ==> NonWrapping(c)
  {
    if ValidFace(f) {
      HandArcsCoverSweep(MinutesAngle(f.minutes), InnerRadius, InnerRadius);
      HandArcsCoverSweep(HoursAngle(f.hours, f.minutes), OuterRadius, OuterThickness);
      NormalizeFixesCanonical(0);
      NormalizeFixesCanonical(360);
    }
  }
}

=== FILE: clock_examples.dfy ===
/** Worked values of the clock-face angle formulas and of the arc split. */
module ClockExamples {
  import opened Clock

  /** The hour-hand angle only depends on the hour modulo 12. */
  lemma HoursAnglePeriodic(hours: nat, minutes: nat)
    ensures HoursAngle(hours + 12, minutes) == HoursAngle(hours, minutes)
  {
    assert (hours + 12) % 12 == hours % 12;
  }

  /** Midnight and noon put the hour hand at 12 o'clock. */
  lemma HoursAngleAtMidnightAndNoon()
    ensures HoursAngle(0, 0) == 0
    ensures HoursAngle(12, 0) == 0
  {
  }

  /** 3:00 puts the hour hand at a quarter turn. */
  lemma HoursAngleAtThree()
    ensures HoursAngle(3, 0) == 90
  {
  }

  /** 6:00 puts the hour hand at a half turn. */
  lemma HoursAngleAtSix()
    ensures HoursAngle(6, 0) == 180
  {
  }

  /** 3:00 takes the single-arc path; 45 minutes takes the two-arc path. */
  lemma HandArcsExamples()
    ensures HandArcs(90, OuterRadius, OuterThickness)
      == [ArcCmd(OuterRadius, OuterThickness, 270, 360, White)]
    ensures MinutesAngle(45) == 270
    ensures HandArcs(270, InnerRadius, InnerRadius)
      == [ArcCmd(InnerRadius, InnerRadius, 270, 360, White), ArcCmd(InnerRadius, InnerRadius, 0, 180, White)]
  {
  }
}

=== FILE: clock_properties.dfy ===
/** Properties of the clock-face composer over whole runs of events, the
    worked examples of the angle formulas, and the teardown guard. */
module ClockProperties {
  import opened Angles
  import opened Clock

  /** The events the platform delivers, one at a time. */
  datatype Event =
    | MinuteTickEvent(t: Tm)
    | ConnectionEvent(connected: bool)
    | TapEvent(handle: TimerHandle)
    | TimerEvent(handle: TimerHandle)

  /** What the platform guarantees of an event in a given state: ticks
      carry valid times, and only a scheduled timer fires. */
  predicate Deliverable(f: Face, e: Event)
  {
    match e
    case MinuteTickEvent(t) => ValidTm(t)
    case ConnectionEvent(_) => true
    case TapEvent(_) => true
    case TimerEvent(h) => h in f.scheduled
  }

  function Handle(f: Face, e: Event): Step
    requires Deliverable(f, e)
  {
    match e
    case MinuteTickEvent(t) => MinuteTick(f, t)
    case ConnectionEvent(c) => ConnectionChanged(f, c)
    case TapEvent(h) => Tap(f, h)
    case TimerEvent(h) => TimerFired(f, h)
  }

  predicate DeliverableRun(f: Face, es: seq<Event>)
    decreases |es|
  {
    es == [] || (Deliverable(f, es[0]) && DeliverableRun(Handle(f, es[0]).face, es[1..]))
  }

  function Run(f: Face, es: seq<Event>): Face
    requires DeliverableRun(f, es)
    decreases |es|
  {
    if es == [] then f else Run(Handle(f, es[0]).face, es[1..])
  }

  /** Every handler keeps the timer slot in step with the timer service. */
  lemma HandlePreservesTimerConsistency(f: Face, e: Event)
    requires Deliverable(f, e)
    requires TimerConsistent(f)
    ensures TimerConsistent(Handle(f, e).face)
  {
  }

  /** From any consistent state, whatever events arrive, at most one marker
      timer is ever scheduled. */
  lemma {:induction false} AtMostOneTimer(f: Face, es: seq<Event>)
    requires TimerConsistent(f)
    requires DeliverableRun(f, es)
    ensures TimerConsistent(Run(f, es))
    ensures |Run(f, es).scheduled| <= 1
    decreases |es|
  {
    if es != [] {
      HandlePreservesTimerConsistency(f, es[0]);
      AtMostOneTimer(Handle(f, es[0]).face, es[1..]);
    } else {
      ConsistentMeansAtMostOne(f);
    }
  }

  /** Tap, tap again, then the timer fires: visible with one timer after
      the first tap, unchanged by the second, hidden with none after expiry. */
  lemma TapTapExpire(f: Face, h1: TimerHandle, h2: TimerHandle)
    requires TimerConsistent(f) && f.markers.Idle?
    ensures var s1 := Tap(f, h1);
      && s1.redraw && s1.face.markers == Pending(h1) && s1.face.scheduled == multiset{h1}
      && var s2 := Tap(s1.face, h2);
      && !s2.redraw && s2.face == s1.face
      && var s3 := TimerFired(s2.face, h1);
      && s3.redraw && s3.face.markers.Idle? && s3.face.scheduled == multiset{}
  {
  }

  // --------------------------------------------------- teardown (finding)

  /** `app_timer_cancel` on the held slot: cancelling NULL does nothing. */
  function Cancel(f: Face, t: Timer): Face
  {
    match t
    case Idle => f
    case Pending(h) => f.(scheduled := f.scheduled - multiset{h})
  }

  /** Teardown as written (src/mason.c:200-202): the guard is inverted, so
      it cancels only when no timer is held. */
  function ShutdownAsWritten(f: Face): Face
  {
    if f.markers.Idle? then Cancel(f, f.markers) else f
  }

  /** The inverted guard never cancels a pending timer. */
  lemma ShutdownAsWrittenKeepsPendingTimer(f: Face)
    requires TimerConsistent(f) && f.markers.Pending?
    ensures f.markers.handle in ShutdownAsWritten(f).scheduled
  {
  }

  /** Teardown with the guard the right way round. */
  function Shutdown(f: Face): Face
  {
    if f.markers.Pending? then Cancel(f, f.markers) else f
  }

  /** With the corrected guard nothing is left scheduled after teardown. */
  lemma ShutdownCancelsEverything(f: Face)
    requires TimerConsistent(f)
    ensures Shutdown(f).scheduled == multiset{}
  {
  }
}

=== FILE: date_label.dfy ===
/** The date label written by the minute-tick handler (src/mason.c:12, 16,
    136): `snprintf(date_str, 7, "%s %02d", days[wday], mday)`. */
module DateLabel {

  /** Weekday abbreviations, Sunday first, as `struct tm` numbers them. */
  const Days: seq<string> := ["SUN", "MON", "TUE", "WED", "THU", "FRI", "SAT"]

  /** Size of the label buffer, including the terminating NUL. */
  const BufferSize: nat := 7

  predicate IsDigit(c: char)
  {
    '0' <= c <= '9'
  }

  predicate AllDigits(s: string)
  {
    forall i :: 0 <= i < |s| ==> IsDigit(s[i])
  }

  function DigitChar(d: nat): (c: char)
    requires d < 10
    ensures IsDigit(c)
  {
    "0123456789"[d]
  }

  function DigitValue(c: char): (d: nat)
    requires IsDigit(c)
    ensures d < 10
  {
    (c as int - '0' as int) as nat
  }

  /** Decimal digits of n, most significant first, with no leading zero. */
  function Decimal(n: nat): (r: string)
    ensures 1 <= |r|
    ensures AllDigits(r)
    ensures |r| == 1 <==> n < 10
    ensures |r| == 2 <==> 10 <= n < 100
    decreases n
  {
    if n < 10 then [DigitChar(n)] else Decimal(n / 10) + [DigitChar(n % 10)]
  }

  /** The number a string of digits denotes. */
  function Value(s: string): nat
    requires AllDigits(s)
  {
    if s == [] then 0 else 10 * Value(s[..|s| - 1]) + DigitValue(s[|s| - 1])
  }

  /** `%02d` of a non-negative number: at least two digits, zero-padded. */
  function ZeroPad2(n: nat): (r: string)
    ensures 2 <= |r|
    ensures AllDigits(r)
    ensures n < 100 ==> |r| == 2
  {
    var d := Decimal(n);
    if |d| < 2 then "0" + d else d
  }

  /** `snprintf` into a buffer of `size` bytes keeps at most size - 1
      characters. */
  function Truncate(s: string, size: nat): (r: string)
    requires size >= 1
    ensures |r| <= size - 1
    ensures |r| <= |s| && r == s[..|r|]
    ensures |s| <= size - 1 ==> r == s
    ensures |s| > size - 1 ==> |r| == size - 1
  {
    if |s| <= size - 1 then s else s[..size - 1]
  }

  /** The label for weekday `wday` (0 = Sunday) and day of month `mday`. */
  function Format(wday: int, mday: nat): (r: string)
    requires 0 <= wday < |Days|
    ensures |r| <= BufferSize - 1
  {
    Truncate(Days[wday] + " " + ZeroPad2(mday), BufferSize)
  }

  /** Reading the digits of a number back gives the number. */
  lemma {:induction false} DecimalValue(n: nat)
    ensures Value(Decimal(n)) == n
    decreases n
  {
    if n >= 10 {
      var hi := Decimal(n / 10);
      var s := hi + [DigitChar(n % 10)];
      assert s[..|s| - 1] == hi;
      DecimalValue(n / 10);
    }
  }

  /** Zero padding does not change the value. */
  lemma ZeroPad2Value(n: nat)
    ensures Value(ZeroPad2(n)) == n
  {
    DecimalValue(n);
    var d := Decimal(n);
    if |d| < 2 {
      var s := "0" + d;
      assert s[..|s| - 1] == "0";
      assert Value("0") == 0 by {
        assert "0"[..0] == [];
      }
    }
  }

  /** For every day a calendar has (indeed every number below 100) the
      label is the abbreviation, a space and two digits that read back as
      the day: six characters, which fit the seven-byte buffer. */
  lemma FormatShape(wday: int, mday: nat)
    requires 0 <= wday < |Days|
    requires mday < 100
    ensures |Format(wday, mday)| == BufferSize - 1
    ensures Format(wday, mday)[..3] == Days[wday]
    ensures Format(wday, mday)[3] == ' '
    ensures AllDigits(Format(wday, mday)[4..])
    ensures Value(Format(wday, mday)[4..]) == mday
  {
    var r := Format(wday, mday);
    var full := Days[wday] + " " + ZeroPad2(mday);
    assert |Days[wday]| == 3;
    assert r == full;
    assert r[..3] == Days[wday];
    assert r[4..] == ZeroPad2(mday);
    ZeroPad2Value(mday);
  }
}
